=== FILE: README.md ===
# ECS Manager registry, modelled in Dafny

This project models the `Manager` class of a small Python entity-component-system
library. The Manager is an in-memory database with these parts:

- an entity table, from entity id to a row that maps each component class to the component instance of that class;
- a reverse index, from each component class to the set of entities that hold one;
- the set of entities marked for deferred deletion;
- the entity id counter;
- the ordered list of registered systems.

Each Manager call is modelled as a pure function from the state before the
call to the state after it. Calls that can raise `KeyError` return either
`Done(state)` or `Raised(state)`. The state in `Raised` is what the call left
behind before it raised. Lookups return `Found(value)` or `KeyError`.

`process` removes the pending entities one at a time, in whatever order the
set yields them. It is modelled as a method with a loop over that set.

Modules:

- `Registry` (registry.dfy): the state and its two invariants.
  - `WellFormed`: every component in a row sits under its own class and is indexed, and no index set is empty. Every call keeps it.
  - `Valid`: `WellFormed`, and every index membership is also backed by a row entry.
- `Queries` (queries.dfy): the single lookups and the one-class and many-class queries.
- `Storage` (storage.dfy): the calls that change entities and components.
- `Reconcile` (reconcile.dfy): the deferred-deletion part of `process`.
- `Systems` (systems.dfy): `add_system` and `remove_system`.
- `Properties` (properties.dfy): lemmas that relate several calls.

Component classes (`type(component)`) are an abstract type `Kind`. What a
component holds besides its class is an abstract type `Data`. Entity ids are
integers. A system instance is its class plus a number that stands for the
object's identity.

## Model

| member | source | states |
|---|---|---|
| Registry.Init | ecs/Manager.py:5-16 | A new Manager holds no row, no index membership, no pending entity and no system, its counter is 0, and it is consistent |
| Properties.FreshManager | ecs/Manager.py:5-16 | A new Manager is consistent, no entity has a row, every class query is empty, and the first id issued is 1 |
| Storage.ClearDatabase | ecs/Manager.py:18-26 | After clear_database every lookup raises KeyError, nothing is indexed or pending, the counter is back at 0, the systems are kept, and the registry is consistent |
| Properties.ClearRestartsIds | ecs/Manager.py:18-26 | After clear_database the next new_entity issues id 1 again |
| Systems.AddSystem | ecs/Manager.py:28-36 | add_system appends the instance at the end of the list and changes nothing else |
| Systems.RemoveFirst | ecs/Manager.py:46 | Python's list.remove shortens the list by one |
| Systems.RemoveFirstCount | ecs/Manager.py:46 | list.remove takes out exactly one occurrence of the instance (multiset difference) |
| Systems.RemoveFirstAt | ecs/Manager.py:46 | When the instance does not occur earlier, list.remove takes out exactly the occurrence the loop is looking at |
| Systems.IterRemoveCount | ecs/Manager.py:43-46 | The remove_system loop removes only systems of the class and keeps every other system with its multiplicity |
| Systems.IterRemove | ecs/Manager.py:43-46 | The remove_system loop as written, with Python's position counter; it never lengthens the list. Which systems it removes is stated by IterRemoveCount, IterRemoveFrom and IterRemoveWithoutAdjacent |
| Systems.RemoveSystem | ecs/Manager.py:38-46 | remove_system changes only the systems list; every system left was registered before, and every system of another class is still registered. The rows on the loop say which systems of the class go |
| Systems.RemoveSystemKeepsOthers | ecs/Manager.py:38-46 | remove_system never removes a system of another class and never adds one |
| Systems.IterRemoveFrom | ecs/Manager.py:43-46 | On distinct instances, walking on from a position, the loop leaves the walked prefix alone and treats the rest by the skip rule |
| Systems.RemoveSystemFollowsSkipRule | ecs/Manager.py:43-46 | On distinct instances remove_system removes a matching system exactly when the one before it was not removed, so the system after each removed match is skipped |
| Systems.SkipRuleWithoutAdjacent | ecs/Manager.py:43-46 | Where no two matching systems are neighbours, the skip rule removes every match and keeps the order of the rest |
| Systems.IterRemoveAtMatch | ecs/Manager.py:43-46 | At a matching system after a prefix with no system of its class, the loop removes it and next looks one position further, past the system that slid into its place |
| Systems.IterRemoveWithoutAdjacent | ecs/Manager.py:43-46 | From a walked prefix with no system of the class, the loop removes every system of the class from the rest when no two are neighbours, on any list, repeated instances included |
| Systems.RemoveSystemCorrectWithoutAdjacent | ecs/Manager.py:38-46 | Where no two matching systems are neighbours, remove_system as written does what was intended, on any list of systems, an instance registered twice included |
| Systems.RemoveSystemLeavesSecondOfPair | ecs/Manager.py:43-46 | Two instances of one class registered back to back: remove_system leaves the second, while the intended removal leaves none |
| Systems.WithoutKind | ecs/Manager.py:38-42 | The list without the class holds exactly the systems of other classes |
| Systems.WithoutKindCount | ecs/Manager.py:38-42 | The list without the class keeps every other system as often as it occurs and no system of the class |
| Systems.RemoveSystemIntended | ecs/Manager.py:38-42 | remove_system as documented: no system of the class remains and every other system is kept |
| Systems.AddThenRemoveIntended | ecs/Manager.py:28-42 | Registering an instance and then removing its class as intended is the same as removing the class as intended alone |
| Systems.WithoutKindAppend | ecs/Manager.py:38-42 | Removing a class from a concatenation removes it from each part |
| Storage.LastOf | ecs/Manager.py:56-57 | Among components added in order, the one left under a class is the last of that class, and one is left iff some component has that class |
| Storage.AddComponent | ecs/Manager.py:112-127 | add_component_to_entity stores the component under its class, replacing any earlier one. Every other lookup is unchanged. A row is created for any id, issued or not. The entity joins the class's index. Both invariants are kept |
| Properties.AddReplaces | ecs/Manager.py:115-116 | Adding two components of one class to an entity is the same as adding only the second |
| Storage.AddAll | ecs/Manager.py:56-57 | Adding a list of components in order leaves, for each class, the last component of that class. The entity is indexed under a class iff it was before or some added component has that class, so earlier memberships stay. Other entities are left alone |
| Storage.NewEntity | ecs/Manager.py:48-58 | new_entity advances the counter first and issues its new value. The issued id ends with exactly the last given component of each class. It is indexed under a class iff it already was before the call or some given component has that class, so stale memberships of the id survive. Other entities are unchanged. The registry stays well formed |
| Properties.IdsAreConsecutive | ecs/Manager.py:54-58 | Consecutive new_entity calls issue consecutive, so strictly increasing, ids |
| Storage.IssueKeepsWellFormed | ecs/Manager.py:54-55 | Advancing the counter and giving the new id an empty row keeps the registry well formed |
| Storage.IssueKeepsValid | ecs/Manager.py:54-55 | Issuing an id that no index set records keeps the table and the index in agreement |
| Storage.NewEntityKeepsValid | ecs/Manager.py:48-58 | new_entity keeps the table and the index in agreement when the id it issues holds no components beforehand |
| Properties.IssuedOnlyUnclaimed | ecs/Manager.py:54-55 | If every row is on an issued id, the id new_entity issues has no row yet |
| Properties.NewEntityKeepsIssuedOnly | ecs/Manager.py:48-58 | new_entity keeps every row on an issued id |
| Properties.AddComponentKeepsIssuedOnly | ecs/Manager.py:112-127 | Adding to an issued id keeps every row on an issued id |
| Properties.RemovalsKeepIssuedOnly | ecs/Manager.py:60-79 | clear_database, remove_component_from_entity and both kinds of remove_entity keep every row on an issued id (process does too, by its own contract: it keeps the counter and only shrinks the table) |
| Properties.DisciplinedNewEntityKeepsValid | ecs/Manager.py:48-58 | If callers add components only to issued ids, new_entity keeps the registry consistent |
| Properties.NewEntityOverwritesRow | ecs/Manager.py:54-57 | A component added to id 1 before any id was issued: new_entity breaks consistency and get_component then raises KeyError. The corrected CreateEntity stays consistent |
| Storage.CreateEntity | ecs/Manager.py:48-58 | The corrected new_entity issues the same id with the same components as the code. The issued id is indexed exactly under the classes of the given components, so no stale membership is left. The table gains exactly that id, and other entities' lookups and memberships are unchanged |
| Storage.CreateEntityKeepsValid | ecs/Manager.py:48-58 | The corrected new_entity keeps the registry consistent whatever the issued id held before |
| Storage.CreateEntityAgrees | ecs/Manager.py:48-58 | Wherever new_entity as written is correct, the corrected one returns exactly the same |
| Storage.Unindex | ecs/Manager.py:73-76 | Removing an entity from the index sets of its row's classes removes exactly those memberships and drops sets that become empty |
| Storage.RemoveEntityNow | ecs/Manager.py:72-77 | Immediate removal raises KeyError, changing nothing, iff the entity has no row. Otherwise it deletes the row and the entity's memberships of its row's classes, keeps every other membership (other entities', and the entity's own under classes its row does not hold) and keeps both invariants |
| Storage.RemoveEntity | ecs/Manager.py:60-79 | The default removal only adds the entity to the pending set and never raises. Immediate removal is the above |
| Properties.DeferredRemovalInvisible | ecs/Manager.py:78-79 | After a deferred removal every lookup, get_component and get_components answer as before and consistency is unchanged |
| Properties.DeferredRemovalIdempotent | ecs/Manager.py:78-79 | Marking an entity for deletion twice is the same as marking it once |
| Properties.ImmediateRemovalErases | ecs/Manager.py:72-77 | In a consistent registry an immediately removed entity has no row and no index membership, and every other entity's lookups are unchanged |
| Queries.GetComponentFromEntity | ecs/Manager.py:81-89 | The lookup finds a component iff the entity's row holds the class. The component found is of that class and, in a consistent registry, found iff indexed |
| Queries.HasComponent | ecs/Manager.py:102-110 | has_component raises KeyError iff the entity has no row, is true iff get_component_from_entity would succeed, and in a consistent registry agrees with the index |
| Queries.GetAllComponents | ecs/Manager.py:91-100 | The components returned are exactly those get_component_from_entity returns for their classes. KeyError iff the entity has no row |
| Queries.AllComponentsCount | ecs/Manager.py:100 | There is one component per class in the entity's row |
| Queries.GetComponent | ecs/Manager.py:144-152 | get_component pairs each member of the class's index with its component. It raises KeyError iff a member lacks the component. In a consistent registry it never raises and yields exactly the entities that have the class |
| Queries.Intersection | ecs/Manager.py:163-165 | The intersection of at least one set holds exactly what every set holds |
| Queries.GetComponents | ecs/Manager.py:154-169 | A class with no index gives an empty result. Each entity yielded is paired with its components in the requested order. The entities yielded are exactly those in every requested index set. The iteration stops early on a swallowed KeyError exactly when some entity in every requested index set lacks one of the classes. In a consistent registry that never happens and the entities yielded are exactly those holding every requested class |
| Properties.AddThenRemove | ecs/Manager.py:112-142 | Adding a component of a class the entity lacks, then removing that class, restores a consistent registry exactly, unless the entity sat on an empty row |
| Properties.RemoveThenAdd | ecs/Manager.py:112-142 | Removing a component and adding it back restores the registry |
| Storage.Drop | ecs/Manager.py:137-139 | Discarding an entity from one class's set removes only that membership, drops the set if it becomes empty, and changes nothing if the entity was not there |
| Storage.RemoveComponent | ecs/Manager.py:129-142 | Succeeds iff the class is indexed and the entity holds it. Afterwards the class is gone from the row and from the index for that entity, and the row is deleted iff it held only that class. Other entries are unchanged. A failed call leaves the table untouched and the entity out of the class's index, and in a consistent registry changes nothing. Both invariants are kept |
| Reconcile.PurgedNothing | ecs/Manager.py:180-183 | Removing no entities leaves the index as it is |
| Reconcile.PurgeStep | ecs/Manager.py:181-182 | Removing one more pending entity immediately takes the index one step further, in any order |
| Reconcile.PurgedWhenValid | ecs/Manager.py:180-183 | In a consistent registry, removing the pending entities strikes exactly their memberships |
| Reconcile.Process | ecs/Manager.py:171-183 | process raises KeyError iff some pending entity has no row. Otherwise every pending entity loses its row and its memberships of its row's classes (every membership, in a consistent registry), and the pending set is emptied. On KeyError the pending set is kept, and some subset of the pending entities has lost its rows and those memberships. Counter, systems and both invariants are kept |
| Properties.MarkThenRemoveNow | ecs/Manager.py:60-79 | An entity marked for deletion and then removed immediately makes the next process raise KeyError, leaving it pending |
| Properties.MoverMatches | ecs/Manager.py:154-169 | In a fresh Manager, an entity created with a position and a velocity is the one match of the two-class query, with its components in query order |
| Properties.HaltedMatches | ecs/Manager.py:129-169 | Once that entity's velocity is removed, the two-class query is empty and the position query still yields the entity |

## Left out

- System dispatch in `process` (ecs/Manager.py:184-185) calls user code with the caller's arguments; it is not modelled.
- Systems.AddSystem: the assertion that the instance subclasses `SystemTemplate` and the `Manager` back-reference set by add_system and cleared by remove_system (ecs/Manager.py:34-35, 45) are not modelled; `SystemTemplate` is not part of this model.
- Systems.RemoveSystemFollowsSkipRule: the skip rule is stated for lists of distinct instances; `IterRemove` models the loop on any list, but with one instance registered twice and two matches next to each other the list holds only the multiset facts; without neighbouring matches Systems.IterRemoveWithoutAdjacent covers any list.
- Queries.GetComponent: the generator is evaluated eagerly; when it raises KeyError the pairs yielded before the error are not modelled, only the error.
- Queries.GetComponents: a KeyError inside the generator is swallowed and ends the iteration early; which pairs came before it depends on set iteration order, so that outcome is `None` with no contents.
- Queries.GetAllComponents: the result is a set; the tuple's order (the row's insertion order) is not modelled.
- Queries.GetComponents: calling it with no classes raises `TypeError` from `set.intersection`; the model requires at least one class.
- Reconcile.Process: the pending set is visited in an unspecified order; when it raises, the contract says that some subset of the pending entities was removed rather than naming it. Like Storage.RemoveEntityNow it requires a well-formed registry.
- Storage.RemoveEntityNow: requires a well-formed registry (every call keeps one, and a new Manager is one), so the KeyError that a row class missing from the index would raise partway through the loop is not modelled.
- Generator laziness and mutation during iteration of the queries: both queries are computed over the state at the time of the call.
- has_component: the docstring promises a boolean, the code raises KeyError for an entity without a row; the model follows the code.
- Entity ids are integers; Python accepts any hashable value.
- `ecs/__init__.py` holds version metadata and re-exports only; it is not part of this model.

## Findings

| source | as written | input that shows it | evidently intended | confidence | as-written member | corrected member |
|---|---|---|---|---|---|---|
| ecs/Manager.py:54-57 | new_entity replaces the row of the id it issues with an empty one but leaves that id in the index sets of the classes the old row held | on a new Manager, add_component_to_entity(c, 1) and then new_entity(): the index still lists entity 1 under type(c), so get_component(type(c)) raises KeyError | the issued id starts with no components in the table or the index | low (needs an add to an id not yet issued); not executed | Properties.NewEntityOverwritesRow | Storage.CreateEntity |
| ecs/Manager.py:43-46 | remove_system calls list.remove on the list its for loop walks, so the system right after each removed one is never examined | two instances of one class registered back to back; remove_system(that class) leaves the second one registered | every system of the class is removed | high; not executed | Systems.RemoveSystemLeavesSecondOfPair | Systems.RemoveSystemIntended |

=== FILE: properties.dfy ===
/**
 Properties that relate several of the Manager's calls: the fresh Manager,
 the id counter, the add/remove round trips, deferred removal, the usage
 discipline under which the Manager stays consistent, and the worked
 example of a moving entity.
 */
module Properties {
  import opened Registry
  import opened Queries
  import opened Storage
  import opened Reconcile

  /** Every entity with a row carries an id the counter has already issued. */
  ghost predicate IssuedOnly(s: State) {
    forall x :: x in s.entities ==> x <= s.nextId
  }

  /** A fresh Manager is consistent, stores nothing and issues 1 first. */
  lemma FreshManager(comps: seq<Component>)
    ensures Valid(Init()) && IssuedOnly(Init())
    ensures forall x, T :: HasComponent(Init(), x, T) == KeyError
    ensures forall T :: GetComponent(Init(), T) == Found(map[])
    ensures NewEntity(Init(), comps).id == 1
  {
    forall T ensures GetComponent(Init(), T) == Found(map[]) {
      assert GetComponent(Init(), T).value.Keys == {};
    }
  }

  /** Consecutive new_entity calls issue consecutive ids. */
  lemma IdsAreConsecutive(s: State, a: seq<Component>, b: seq<Component>)
    ensures NewEntity(NewEntity(s, a).state, b).id == NewEntity(s, a).id + 1
  {
  }

  /** An id new_entity issues has no row before the call when only issued ids ever got rows. */
  lemma IssuedOnlyUnclaimed(s: State)
    requires IssuedOnly(s)
    ensures Unclaimed(s)
    ensures NewEntity(s, []).id !in s.entities
  {
  }

  /** After clear_database the ids start again from 1. */
  lemma ClearRestartsIds(s: State, comps: seq<Component>)
    ensures NewEntity(ClearDatabase(s), comps).id == 1
  {
  }

  /** new_entity keeps every row on an issued id. */
  lemma NewEntityKeepsIssuedOnly(s: State, comps: seq<Component>)
    requires IssuedOnly(s)
    ensures IssuedOnly(NewEntity(s, comps).state)
  {
  }

  /** Adding a component to an issued id keeps every row on an issued id. */
  lemma AddComponentKeepsIssuedOnly(s: State, c: Component, x: EntityId)
    requires IssuedOnly(s) && x <= s.nextId
    ensures IssuedOnly(AddComponent(s, c, x))
  {
  }

  /**
   Clearing and every kind of removal keep every row on an issued id. So does
   process, whose contract keeps the counter and only shrinks the table.
   */
  lemma RemovalsKeepIssuedOnly(s: State, T: Kind, x: EntityId)
    requires IssuedOnly(s)
    ensures IssuedOnly(ClearDatabase(s))
    ensures IssuedOnly(RemoveComponent(s, T, x).state)
    ensures IssuedOnly(RemoveEntity(s, x, false).state)
    ensures WellFormed(s) ==> IssuedOnly(RemoveEntity(s, x, true).state)
  {
  }

  /**
   A Manager whose callers add components only to ids it has issued stays
   consistent through new_entity: the issued id never holds stale entries.
   */
  lemma DisciplinedNewEntityKeepsValid(s: State, comps: seq<Component>)
    requires Valid(s) && IssuedOnly(s)
    ensures Valid(NewEntity(s, comps).state) && IssuedOnly(NewEntity(s, comps).state)
  {
    IssuedOnlyUnclaimed(s);
    NewEntityKeepsValid(s, comps);
  }

  /** Adding two components of one class to an entity leaves only the second. */
  lemma AddReplaces(s: State, c1: Component, c2: Component, x: EntityId)
    requires c1.kind == c2.kind
    ensures AddComponent(AddComponent(s, c1, x), c2, x) == AddComponent(s, c2, x)
  {
    var once := AddComponent(s, c1, x);
    assert once.index[c1.kind] + {x} == once.index[c1.kind];
    assert once.entities[x][c2.kind := c2] == (if x in s.entities then s.entities[x] else map[])[c2.kind := c2];
  }

  /** Two index maps that record the same memberships and hold no empty set are equal. */
  lemma SameIndex(s: State, t: State)
    requires NoEmptyIndex(s) && NoEmptyIndex(t)
    requires forall T, x :: Indexes(s, T, x) <==> Indexes(t, T, x)
    ensures s.index == t.index
  {
    forall U | U in s.index ensures U in t.index {
      Witness(s, t, U);
    }
    forall U | U in t.index ensures U in s.index {
      Witness(t, s, U);
    }
    forall U | U in s.index && U in t.index ensures s.index[U] == t.index[U] {
      forall y ensures y in s.index[U] <==> y in t.index[U] {
        assert Indexes(s, U, y) <==> Indexes(t, U, y);
      }
    }
  }

  /** A class with a non-empty index set in s has one in t when both record the same memberships. */
  lemma Witness(s: State, t: State, U: Kind)
    requires NoEmptyIndex(s) && U in s.index
    requires forall T, x :: Indexes(s, T, x) <==> Indexes(t, T, x)
    ensures U in t.index
  {
    HasMember(s.index[U]);
    var y :| y in s.index[U];
    assert Indexes(s, U, y);
  }

  /** Two tables with the same rows and the same lookups are equal. */
  lemma SameTable(s: State, t: State)
    requires s.entities.Keys == t.entities.Keys
    requires forall T, x :: GetComponentFromEntity(s, T, x) == GetComponentFromEntity(t, T, x)
    ensures s.entities == t.entities
  {
    forall y | y in s.entities ensures s.entities[y] == t.entities[y] {
      forall U ensures (U in s.entities[y] <==> U in t.entities[y]) && (U in s.entities[y] ==> s.entities[y][U] == t.entities[y][U]) {
        assert GetComponentFromEntity(s, U, y) == GetComponentFromEntity(t, U, y);
      }
    }
  }

  /**
   Adding a component of a class the entity lacks and then removing that
   class gives back the registry as it was, provided the entity does not
   sit on an empty row (which the removal of its last component deletes).
   */
  lemma AddThenRemove(s: State, c: Component, x: EntityId)
    requires Valid(s) && !Holds(s, x, c.kind)
    requires x in s.entities ==> s.entities[x] != map[]
    ensures RemoveComponent(AddComponent(s, c, x), c.kind, x) == Done(s)
  {
    var T := c.kind;
    var added := AddComponent(s, c, x);
    var r := RemoveComponent(added, T, x);
    assert r.Done?;
    assert !Indexes(s, T, x);
    SameIndex(r.state, s);
    assert r.state.entities.Keys == s.entities.Keys by {
      if x in s.entities {
        assert added.entities[x].Keys == s.entities[x].Keys + {T};
        assert s.entities[x].Keys != {} by {
          assert s.entities[x] == map[] <==> s.entities[x].Keys == {};
        }
      } else {
        assert added.entities[x].Keys == {T};
      }
    }
    assert forall U, y :: GetComponentFromEntity(r.state, U, y) == GetComponentFromEntity(s, U, y) by {
      forall U, y ensures GetComponentFromEntity(r.state, U, y) == GetComponentFromEntity(s, U, y) {
        if y != x || U != T {
          assert GetComponentFromEntity(added, U, y) == GetComponentFromEntity(s, U, y);
        }
      }
    }
    SameTable(r.state, s);
  }

  /** Removing a component and adding it back gives back the registry as it was. */
  lemma RemoveThenAdd(s: State, T: Kind, x: EntityId)
    requires Valid(s) && Holds(s, x, T)
    ensures RemoveComponent(s, T, x).Done?
    ensures AddComponent(RemoveComponent(s, T, x).state, s.entities[x][T], x) == s
  {
    var c := s.entities[x][T];
    var removed := RemoveComponent(s, T, x);
    assert Indexes(s, T, x);
    var r := AddComponent(removed.state, c, x);
    SameIndex(r, s);
    assert forall U, y :: GetComponentFromEntity(r, U, y) == GetComponentFromEntity(s, U, y) by {
      forall U, y ensures GetComponentFromEntity(r, U, y) == GetComponentFromEntity(s, U, y) {
        if y != x || U != T {
          assert GetComponentFromEntity(removed.state, U, y) == GetComponentFromEntity(s, U, y);
        }
      }
    }
    SameTable(r, s);
  }

  /** Deferred removal marks the entity and no lookup or query sees a difference. */
  lemma DeferredRemovalInvisible(s: State, x: EntityId, T: Kind, y: EntityId, Ts: seq<Kind>)
    ensures var t := RemoveEntity(s, x, false).state;
      && GetComponentFromEntity(t, T, y) == GetComponentFromEntity(s, T, y)
      && HasComponent(t, y, T) == HasComponent(s, y, T)
      && GetAllComponents(t, y) == GetAllComponents(s, y)
      && GetComponent(t, T) == GetComponent(s, T)
      && (|Ts| >= 1 ==> GetComponents(t, Ts) == GetComponents(s, Ts))
      && (Valid(t) <==> Valid(s))
  {
    var t := RemoveEntity(s, x, false).state;
    assert forall z, U :: Holds(t, z, U) == Holds(s, z, U) && Indexes(t, U, z) == Indexes(s, U, z);
    assert t.entities == s.entities && t.index == s.index;
  }

  /** Marking an entity twice is marking it once. */
  lemma DeferredRemovalIdempotent(s: State, x: EntityId)
    ensures RemoveEntity(RemoveEntity(s, x, false).state, x, false) == RemoveEntity(s, x, false)
  {
  }

  /** An entity removed immediately leaves no trace in the table or the index of a consistent registry. */
  lemma ImmediateRemovalErases(s: State, x: EntityId)
    requires Valid(s) && x in s.entities
    ensures var t := RemoveEntity(s, x, true);
      && t.Done?
      && (forall T :: HasComponent(t.state, x, T) == KeyError && !Indexes(t.state, T, x))
      && GetAllComponents(t.state, x) == KeyError
      && forall T, y :: y != x ==> GetComponentFromEntity(t.state, T, y) == GetComponentFromEntity(s, T, y)
  {
  }

  /**
   An entity marked for deletion and then removed immediately has no row
   when process reaches it, so process raises KeyError.
   */
  method MarkThenRemoveNow(s: State, x: EntityId) returns (r: Outcome)
    requires WellFormed(s) && x in s.entities
    ensures r.Raised? && x in r.state.dead
  {
    var marked := RemoveEntity(s, x, false).state;
    assert forall z, U :: Holds(marked, z, U) == Holds(s, z, U) && Indexes(marked, U, z) == Indexes(s, U, z);
    var removed := RemoveEntity(marked, x, true).state;
    assert x in removed.dead && x !in removed.entities;
    r := Process(removed);
  }

  /** The entity created with a position and a velocity, in a fresh Manager. */
  function Mover(p: Component, v: Component): Created {
    CreateEntity(Init(), [p, v])
  }

  /** In a consistent registry whose only components are p and v on entity 1, the two-class query yields entity 1 alone. */
  lemma OnlyOneMatches(s: State, p: Component, v: Component)
    requires Valid(s) && p.kind != v.kind
    requires forall x, T :: Holds(s, x, T) <==> x == 1 && (T == p.kind || T == v.kind)
    requires GetComponentFromEntity(s, p.kind, 1) == Found(p) && GetComponentFromEntity(s, v.kind, 1) == Found(v)
    ensures GetComponents(s, [p.kind, v.kind]) == Some(map[1 := [p, v]])
  {
    var Ts := [p.kind, v.kind];
    var both := GetComponents(s, Ts);
    assert both.Some?;
    assert both.value.Keys == {1} by {
      forall x ensures x in both.value <==> x == 1 {
        assert HoldsAll(s, x, Ts) <==> Holds(s, x, Ts[0]) && Holds(s, x, Ts[1]);
      }
    }
    assert both.value[1] == [p, v] by {
      assert |both.value[1]| == 2;
      assert GetComponentFromEntity(s, Ts[0], 1) == Found(both.value[1][0]);
      assert GetComponentFromEntity(s, Ts[1], 1) == Found(both.value[1][1]);
    }
    assert both.value == map[1 := [p, v]];
  }

  /** The mover's components, and nothing else, are in the registry, which is consistent. */
  lemma MoverContents(p: Component, v: Component)
    requires p.kind != v.kind
    ensures Mover(p, v) == NewEntity(Init(), [p, v]) && Mover(p, v).id == 1
    ensures Valid(Mover(p, v).state)
    ensures forall x, T :: Holds(Mover(p, v).state, x, T) <==> x == 1 && (T == p.kind || T == v.kind)
    ensures GetComponentFromEntity(Mover(p, v).state, p.kind, 1) == Found(p)
    ensures GetComponentFromEntity(Mover(p, v).state, v.kind, 1) == Found(v)
  {
    var e := Mover(p, v);
    CreateEntityAgrees(Init(), [p, v]);
    CreateEntityKeepsValid(Init(), [p, v]);
    assert LastOf([p, v], p.kind) == Some(p) && LastOf([p, v], v.kind) == Some(v);
    forall x, T ensures Holds(e.state, x, T) <==> x == 1 && (T == p.kind || T == v.kind) {
      if x != 1 {
        assert GetComponentFromEntity(e.state, T, x) == GetComponentFromEntity(Init(), T, x);
      } else if T != p.kind && T != v.kind {
        assert LastOf([p, v], T) == LastOf([v], T);
      }
    }
  }

  /** The two-class query over the fresh mover yields exactly the mover, with its components in query order. */
  lemma MoverMatches(p: Component, v: Component)
    requires p.kind != v.kind
    ensures Mover(p, v).id == 1
    ensures GetComponents(Mover(p, v).state, [p.kind, v.kind]) == Some(map[1 := [p, v]])
  {
    MoverContents(p, v);
    OnlyOneMatches(Mover(p, v).state, p, v);
  }

  /** The mover with its velocity removed. */
  function Halted(p: Component, v: Component): Outcome {
    RemoveComponent(Mover(p, v).state, v.kind, 1)
  }

  /** Removing the mover's velocity leaves a consistent registry in which only the mover's position remains. */
  lemma HaltedContents(p: Component, v: Component)
    requires p.kind != v.kind
    ensures Halted(p, v).Done? && Valid(Halted(p, v).state)
    ensures forall x, T :: Holds(Halted(p, v).state, x, T) <==> x == 1 && T == p.kind
    ensures GetComponentFromEntity(Halted(p, v).state, p.kind, 1) == Found(p)
  {
    MoverContents(p, v);
    var h := Halted(p, v);
    forall x, T ensures Holds(h.state, x, T) <==> x == 1 && T == p.kind {
      if x != 1 || T != v.kind {
        assert GetComponentFromEntity(h.state, T, x) == GetComponentFromEntity(Mover(p, v).state, T, x);
      }
    }
  }

  /** In a consistent registry whose only component is p on entity 1, no entity holds both p's class and another. */
  lemma NoneMatch(s: State, p: Component, V: Kind)
    requires Valid(s) && p.kind != V
    requires forall x, T :: Holds(s, x, T) <==> x == 1 && T == p.kind
    ensures GetComponents(s, [p.kind, V]) == Some(map[])
  {
    var Ts := [p.kind, V];
    var none := GetComponents(s, Ts);
    assert none.Some?;
    forall x ensures x !in none.value {
      assert !Holds(s, x, Ts[1]);
    }
    assert none.value == map[];
  }

  /** In a consistent registry whose only component is p on entity 1, the query for p's class yields entity 1 alone. */
  lemma OnlyOneHolds(s: State, p: Component)
    requires Valid(s)
    requires forall x, T :: Holds(s, x, T) <==> x == 1 && T == p.kind
    requires GetComponentFromEntity(s, p.kind, 1) == Found(p)
    ensures GetComponent(s, p.kind) == Found(map[1 := p])
  {
    var one := GetComponent(s, p.kind);
    assert one.Found?;
    forall x ensures x in one.value <==> x == 1 {
      assert HasComponent(s, x, p.kind) == Found(true) <==> Holds(s, x, p.kind);
    }
    assert one.value == map[1 := p];
  }

  /** Once the velocity is gone the two-class query is empty, and the position query still yields the mover. */
  lemma HaltedMatches(p: Component, v: Component)
    requires p.kind != v.kind
    ensures GetComponents(Halted(p, v).state, [p.kind, v.kind]) == Some(map[])
    ensures GetComponent(Halted(p, v).state, p.kind) == Found(map[1 := p])
  {
    HaltedContents(p, v);
    NoneMatch(Halted(p, v).state, p, v.kind);
    OnlyOneHolds(Halted(p, v).state, p);
  }

  /**
   The registry the new_entity finding starts from: a component added to
   id 1 before any id was issued. new_entity then issues 1 with an empty
   row while P's index still records 1, so get_component(P) raises
   KeyError; the corrected CreateEntity issues 1 clean.
   */
  lemma NewEntityOverwritesRow(c: Component)
    ensures Valid(AddComponent(Init(), c, 1))
    ensures var t := NewEntity(AddComponent(Init(), c, 1), []).state;
      !Valid(t) && GetComponent(t, c.kind) == KeyError
    ensures var u := CreateEntity(AddComponent(Init(), c, 1), []).state;
      Valid(u) && GetComponent(u, c.kind) == Found(map[])
  {
    var s := AddComponent(Init(), c, 1);
    var t := NewEntity(s, []).state;
    assert Indexes(t, c.kind, 1) && !Holds(t, 1, c.kind);
    CreateEntityKeepsValid(s, []);
    var u := CreateEntity(s, []).state;
    assert forall x :: !Holds(u, x, c.kind) by {
      forall x ensures !Holds(u, x, c.kind) {
        if x != 1 {
          assert GetComponentFromEntity(u, c.kind, x) == GetComponentFromEntity(s, c.kind, x);
        }
      }
    }
  }
}

=== FILE: queries.dfy ===
/**
 The Manager's read-only calls: single lookups on an entity's row, and the
 single-class and multi-class queries over the index. The queries are
 computed eagerly over the current state.
 */
module Queries {
  import opened Registry

  /** get_component_from_entity: the component of class T on entity x. */
  function GetComponentFromEntity(s: State, T: Kind, x: EntityId): (r: Lookup<Component>)
    ensures r.Found? <==> Holds(s, x, T)
    ensures WellFormed(s) && r.Found? ==> r.value.kind == T && Indexes(s, T, x)
    ensures Valid(s) ==> (r.Found? <==> Indexes(s, T, x))
  {
    if x in s.entities && T in s.entities[x] then Found(s.entities[x][T]) else KeyError
  }

  /** has_component: raises KeyError for an entity without a row. */
  function HasComponent(s: State, x: EntityId, T: Kind): (r: Lookup<bool>)
    ensures r.KeyError? <==> x !in s.entities
    ensures r == Found(true) <==> GetComponentFromEntity(s, T, x).Found?
    ensures Valid(s) && r.Found? ==> (r.value <==> Indexes(s, T, x))
  {
    if x in s.entities then Found(T in s.entities[x]) else KeyError
  }

  /** get_all_components_from_entity: the components of x's row (their order is not modelled). */
  function GetAllComponents(s: State, x: EntityId): (r: Lookup<set<Component>>)
    ensures r.KeyError? <==> x !in s.entities
    ensures WellFormed(s) && r.Found? ==>
      (forall c :: c in r.value <==> GetComponentFromEntity(s, c.kind, x) == Found(c))
  {
    if x in s.entities then Found(s.entities[x].Values) else KeyError
  }

  /** The tuple get_all_components_from_entity returns has one component per class the entity holds. */
  lemma AllComponentsCount(s: State, x: EntityId)
    requires WellFormed(s) && x in s.entities
    ensures |GetAllComponents(s, x).value| == |s.entities[x]|
  {
    TypedRowSize(s.entities[x]);
  }

  /** A row whose components sit under their own class has as many components as classes. */
  lemma {:induction false} TypedRowSize(row: Row)
    requires forall T :: T in row ==> row[T].kind == T
    ensures |row.Values| == |row.Keys|
    decreases |row.Keys|
  {
    if row.Keys != {} {
      var T :| T in row.Keys;
      var rest := row - {T};
      TypedRowSize(rest);
      assert row.Keys == rest.Keys + {T};
      assert row.Values == rest.Values + {row[T]} by {
        forall c | c in row.Values ensures c in rest.Values + {row[T]} {
          var U :| U in row && row[U] == c;
          if U != T {
            assert c == rest[U];
          }
        }
        forall c | c in rest.Values + {row[T]} ensures c in row.Values {
          if c != row[T] {
            var U :| U in rest && rest[U] == c;
            assert row[U] == c;
          }
        }
      }
      assert row[T] !in rest.Values by {
        forall U | U in rest ensures rest[U] != row[T] {
          assert rest[U].kind == U;
        }
      }
    }
  }

  /** The members of T's index, or none when T is not indexed. */
  function Members(s: State, T: Kind): set<EntityId> {
    if T in s.index then s.index[T] else {}
  }

  /**
   get_component: one (entity, component) pair per member of T's index.
   Raises KeyError when a member has no such component (a state Valid rules out).
   */
  function GetComponent(s: State, T: Kind): (r: Lookup<map<EntityId, Component>>)
    ensures r.Found? ==> r.value.Keys == Members(s, T)
    ensures r.Found? ==> forall x :: x in r.value ==> GetComponentFromEntity(s, T, x) == Found(r.value[x])
    ensures r.KeyError? <==> exists x :: x in Members(s, T) && !Holds(s, x, T)
    ensures Valid(s) ==> r.Found? && forall x :: x in r.value <==> HasComponent(s, x, T) == Found(true)
  {
    var members := Members(s, T);
    if forall x :: x in members ==> x in s.entities && T in s.entities[x] then
      Found(map x | x in members :: s.entities[x][T])
    else
      KeyError
  }

  /** The entities common to every set of `sets` (Python's set.intersection with at least one argument). */
  function Intersection(sets: seq<set<EntityId>>): (r: set<EntityId>)
    requires |sets| >= 1
    ensures forall x :: x in r <==> forall i :: 0 <= i < |sets| ==> x in sets[i]
  {
    if |sets| == 1 then sets[0]
    else
      var rest := Intersection(sets[1..]);
      assert forall x :: x in rest <==> forall i :: 1 <= i < |sets| ==> x in sets[i] by {
        forall x ensures x in rest <==> forall i :: 1 <= i < |sets| ==> x in sets[i] {
          if forall i :: 1 <= i < |sets| ==> x in sets[i] {
            forall j | 0 <= j < |sets[1..]| ensures x in sets[1..][j] {
              assert sets[1..][j] == sets[j + 1];
            }
          }
          if x in rest {
            forall i | 1 <= i < |sets| ensures x in sets[i] {
              assert sets[i] == sets[1..][i - 1];
            }
          }
        }
      }
      sets[0] * rest
  }

  /** Each requested class is indexed. */
  predicate AllIndexed(s: State, Ts: seq<Kind>) {
    forall i :: 0 <= i < |Ts| ==> Ts[i] in s.index
  }

  /** x holds every requested class. */
  ghost predicate HoldsAll(s: State, x: EntityId, Ts: seq<Kind>) {
    forall i :: 0 <= i < |Ts| ==> Holds(s, x, Ts[i])
  }

  /** The index sets of the requested classes, in the order requested. */
  function IndexSets(s: State, Ts: seq<Kind>): (r: seq<set<EntityId>>)
    requires AllIndexed(s, Ts)
    ensures |r| == |Ts| && forall i :: 0 <= i < |Ts| ==> r[i] == s.index[Ts[i]]
  {
    seq(|Ts|, i requires 0 <= i < |Ts| => s.index[Ts[i]])
  }

  /** The intersection of the requested index sets holds exactly the entities every requested class indexes. */
  lemma CommonIsIndexed(s: State, Ts: seq<Kind>)
    requires |Ts| >= 1 && AllIndexed(s, Ts)
    ensures forall x :: x in Intersection(IndexSets(s, Ts)) <==> forall i :: 0 <= i < |Ts| ==> Indexes(s, Ts[i], x)
  {
    var sets := IndexSets(s, Ts);
    forall x ensures x in Intersection(sets) <==> forall i :: 0 <= i < |Ts| ==> Indexes(s, Ts[i], x) {
      assert (forall i :: 0 <= i < |sets| ==> x in sets[i]) <==> forall i :: 0 <= i < |Ts| ==> Indexes(s, Ts[i], x);
    }
  }

  /**
   get_components: for each entity in the intersection of the requested
   classes' index sets, its components in the requested order. A class with
   no index gives no matches. A KeyError met while reading a row is
   swallowed and ends the iteration early; which pairs were produced before
   it depends on set iteration order, so that case is `None`.
   */
  function GetComponents(s: State, Ts: seq<Kind>): (r: Option<map<EntityId, seq<Component>>>)
    requires |Ts| >= 1
    ensures !AllIndexed(s, Ts) ==> r == Some(map[])
    ensures r.Some? ==> forall x :: x in r.value ==>
      && |r.value[x]| == |Ts|
      && forall i :: 0 <= i < |Ts| ==> GetComponentFromEntity(s, Ts[i], x) == Found(r.value[x][i])
    ensures AllIndexed(s, Ts) && r.Some? ==> forall x :: x in r.value <==> forall i :: 0 <= i < |Ts| ==> Indexes(s, Ts[i], x)
    ensures Valid(s) ==> r.Some? && forall x :: x in r.value <==> HoldsAll(s, x, Ts)
    ensures r.None? <==> AllIndexed(s, Ts) && exists x :: (forall i :: 0 <= i < |Ts| ==> Indexes(s, Ts[i], x)) && !HoldsAll(s, x, Ts)
  {
    if !AllIndexed(s, Ts) then Some(map[])
    else
      var common := Intersection(IndexSets(s, Ts));
      CommonIsIndexed(s, Ts);
      assert forall x :: (x in s.entities && forall i :: 0 <= i < |Ts| ==> Ts[i] in s.entities[x]) <==> HoldsAll(s, x, Ts);
      assert Valid(s) ==> forall x :: x in common ==> HoldsAll(s, x, Ts) by {
        if Valid(s) {
          forall x | x in common ensures HoldsAll(s, x, Ts) {
            forall i | 0 <= i < |Ts| ensures Holds(s, x, Ts[i]) {
              assert Indexes(s, Ts[i], x);
            }
          }
        }
      }
      if forall x :: x in common ==> x in s.entities && forall i :: 0 <= i < |Ts| ==> Ts[i] in s.entities[x] then
        Some(map x | x in common :: seq(|Ts|, i requires 0 <= i < |Ts| => s.entities[x][Ts[i]]))
      else
        None
  }
}

=== FILE: reconcile.dfy ===
/**
 The deferred-deletion half of the Manager's per-tick `process` call: every
 entity marked by remove_entity is removed immediately, in whatever order
 the pending set yields them, and the pending set is then emptied.
 */
module Reconcile {
  import opened Registry
  import opened Queries
  import opened Storage

  /** A non-empty set has a member. */
  lemma HasMember(xs: set<EntityId>)
    requires xs != {}
    ensures exists x :: x in xs
  {
    if forall x :: x !in xs {
      assert false;
    }
  }

  /** The members of `gone` whose row holds class T. */
  ghost function Hit(s: State, gone: set<EntityId>, T: Kind): set<EntityId> {
    set x | x in gone && Holds(s, x, T)
  }

  /** The index after every entity of `gone` has been removed immediately, in any order. */
  ghost function Purged(s: State, gone: set<EntityId>): map<Kind, set<EntityId>> {
    map T | T in s.index && s.index[T] - Hit(s, gone, T) != {} :: s.index[T] - Hit(s, gone, T)
  }

  /** Removing nothing leaves the index as it is. */
  lemma PurgedNothing(s: State)
    requires WellFormed(s)
    ensures Purged(s, {}) == s.index
  {
    forall T | T in s.index ensures Hit(s, {}, T) == {} && s.index[T] - Hit(s, {}, T) == s.index[T] {}
    assert forall T :: T in Purged(s, {}) <==> T in s.index;
  }

  /** Removing one more entity immediately takes the index one step further. */
  lemma PurgeStep(s: State, gone: set<EntityId>, x: EntityId)
    requires WellFormed(s) && x in s.entities && x !in gone
    ensures Unindex(Purged(s, gone), x, s.entities[x].Keys) == Purged(s, gone + {x})
  {
    var kinds := s.entities[x].Keys;
    var before := Purged(s, gone);
    var after := Purged(s, gone + {x});
    var stepped := Unindex(before, x, kinds);
    forall T ensures (T in stepped <==> T in after) && (T in stepped ==> stepped[T] == after[T]) {
      assert Hit(s, gone + {x}, T) == Hit(s, gone, T) + (if T in kinds then {x} else {});
      if T in kinds {
        assert Indexes(s, T, x);
        assert x in s.index[T] - Hit(s, gone, T);
      }
    }
    assert stepped == after;
  }

  /** In a Valid registry, purging strikes exactly the removed entities out of the index. */
  lemma PurgedWhenValid(s: State, gone: set<EntityId>)
    requires Valid(s)
    ensures forall T, x :: T in Purged(s, gone) && x in Purged(s, gone)[T] <==> Indexes(s, T, x) && x !in gone
  {
    forall T, x ensures T in Purged(s, gone) && x in Purged(s, gone)[T] <==> Indexes(s, T, x) && x !in gone {
      if Indexes(s, T, x) && x !in gone {
        assert x in s.index[T] - Hit(s, gone, T);
      }
      if Indexes(s, T, x) && x in gone {
        assert Holds(s, x, T);
        assert x in Hit(s, gone, T);
      }
    }
  }

  /**
   process, deferred-deletion part: each pending entity is removed
   immediately and the pending set is then cleared. Raises KeyError when a
   pending entity has no row (it was already removed immediately, or lost
   its last component); the entities handled before it stay removed and the
   pending set is not cleared.
   */
  method Process(s: State) returns (r: Outcome)
    requires WellFormed(s)
    ensures r.Raised? <==> exists x :: x in s.dead && x !in s.entities
    ensures r.Done? ==> r.state.entities == s.entities - s.dead && r.state.dead == {}
    ensures r.Done? ==> r.state.index == Purged(s, s.dead)
    ensures r.Raised? ==> r.state.dead == s.dead && s.entities.Keys - s.dead <= r.state.entities.Keys <= s.entities.Keys
    ensures r.Raised? ==> exists gone :: gone <= s.dead && r.state.entities == s.entities - gone && r.state.index == Purged(s, gone)
    ensures r.state.nextId == s.nextId && r.state.systems == s.systems
    ensures WellFormed(r.state)
    ensures Valid(s) ==> Valid(r.state)
    ensures Valid(s) && r.Done? ==> forall T, x :: Indexes(r.state, T, x) <==> Indexes(s, T, x) && x !in s.dead
  {
    var cur := s;
    var todo := s.dead;
    PurgedNothing(s);
    assert s.dead - todo == {};
    while todo != {}
      invariant todo <= s.dead
      invariant s.dead - todo <= s.entities.Keys
      invariant cur.entities == s.entities - (s.dead - todo)
      invariant cur.index == Purged(s, s.dead - todo)
      invariant cur.dead == s.dead && cur.nextId == s.nextId && cur.systems == s.systems
      invariant WellFormed(cur)
      invariant Valid(s) ==> Valid(cur)
      decreases todo
    {
      HasMember(todo);
      var x :| x in todo;
      if x !in cur.entities {
        assert cur.index == Purged(s, s.dead - todo);
        return Raised(cur);
      }
      var gone := s.dead - todo;
      PurgeStep(s, gone, x);
      assert cur.entities[x] == s.entities[x];
      cur := RemoveEntityNow(cur, x).state;
      todo := todo - {x};
      assert s.dead - todo == gone + {x};
    }
    assert s.dead - todo == s.dead;
    if Valid(s) {
      PurgedWhenValid(s, s.dead);
    }
    r := Done(cur.(dead := {}));
    assert forall x, T :: Holds(r.state, x, T) == Holds(cur, x, T) && Indexes(r.state, T, x) == Indexes(cur, T, x);
  }
}

=== FILE: registry.dfy ===
/**
 The state of an entity-component-system Manager: the entity table, the
 reverse index from component class to entities, the set of entities marked
 for deferred deletion, the id counter and the registered systems.

 The two invariants of the registry live here:
 - WellFormed: every component stored in a row is indexed under its class,
   sits under its own class, and no class is indexed by an empty set. Every
   operation of the Manager keeps it, whatever the caller does.
 - Valid: WellFormed, and every index membership is backed by a row entry
   (the index and the table agree in both directions).
 */
module Registry {

  /** The runtime class of a component or system: the only thing the registry classifies by. */
  type Kind(==, !new)

  /** Whatever a component instance holds besides its class. */
  type Data(!new)

  /** Entity ids are plain integers; the Manager issues 1, 2, 3, ... */
  type EntityId = int

  datatype Component = Component(kind: Kind, data: Data)

  /** A registered system instance: `handle` stands for the object's identity. */
  datatype System = System(handle: nat, kind: Kind)

  /** One entity's components, keyed by their class. */
  type Row = map<Kind, Component>

  datatype State = State(
    entities: map<EntityId, Row>,
    index: map<Kind, set<EntityId>>,
    dead: set<EntityId>,
    nextId: nat,
    systems: seq<System>)

  datatype Option<T> = None | Some(value: T)

  /** The outcome of a call that may raise KeyError; `state` is what the call left behind. */
  datatype Outcome = Done(state: State) | Raised(state: State)

  /** The outcome of a lookup that may raise KeyError. */
  datatype Lookup<T> = Found(value: T) | KeyError

  /** A new entity's id together with the state that holds it. */
  datatype Created = Created(state: State, id: EntityId)

  /** A freshly constructed Manager. */
  function Init(): (r: State)
    ensures forall x :: x !in r.entities && x !in r.dead
    ensures forall T, x :: !Indexes(r, T, x)
    ensures r.nextId == 0 && r.systems == []
    ensures Valid(r)
  {
    State(map[], map[], {}, 0, [])
  }

  /** T's index records x. */
  ghost predicate Indexes(s: State, T: Kind, x: EntityId) {
    T in s.index && x in s.index[T]
  }

  /** x's row holds a component of class T. */
  ghost predicate Holds(s: State, x: EntityId, T: Kind) {
    x in s.entities && T in s.entities[x]
  }

  ghost predicate NoEmptyIndex(s: State) {
    forall T :: T in s.index ==> s.index[T] != {}
  }

  ghost predicate Typed(s: State) {
    forall x, T :: Holds(s, x, T) ==> s.entities[x][T].kind == T
  }

  ghost predicate RowsIndexed(s: State) {
    forall x, T :: Holds(s, x, T) ==> Indexes(s, T, x)
  }

  ghost predicate IndexBacked(s: State) {
    forall x, T :: Indexes(s, T, x) ==> Holds(s, x, T)
  }

  /** Holds of every state the Manager can reach. */
  ghost predicate WellFormed(s: State) {
    NoEmptyIndex(s) && Typed(s) && RowsIndexed(s)
  }

  /** The consistency the design promises: the index and the table agree. */
  ghost predicate Valid(s: State) {
    WellFormed(s) && IndexBacked(s)
  }
}

=== FILE: storage.dfy ===
/**
 The Manager's calls that change entities and components: clearing the
 database, creating and removing entities, attaching and detaching
 components. Each is a function from the state before the call to the
 state after it (or to the state a KeyError left behind), and each states
 which of the registry invariants it keeps.
 */
module Storage {
  import opened Registry
  import opened Queries

  /** clear_database: nothing stored, nothing pending, and the id counter back at its start. */
  function ClearDatabase(s: State): (r: State)
    ensures forall x, T :: GetComponentFromEntity(r, T, x) == KeyError && !Indexes(r, T, x)
    ensures forall x :: x !in r.entities && x !in r.dead
    ensures r.nextId == Init().nextId && r.systems == s.systems
    ensures Valid(r)
  {
    s.(entities := map[], index := map[], dead := {}, nextId := 0)
  }

  /** The component of class T left on an entity after adding `comps` in order: the last one of that class. */
  function LastOf(comps: seq<Component>, T: Kind): (r: Option<Component>)
    ensures r.Some? <==> exists i :: 0 <= i < |comps| && comps[i].kind == T
    ensures r.Some? ==> exists i :: (0 <= i < |comps| && comps[i] == r.value && r.value.kind == T &&
      forall j :: i < j < |comps| ==> comps[j].kind != T)
  {
    if comps == [] then None
    else
      var later := LastOf(comps[1..], T);
      assert forall j :: 1 <= j < |comps| ==> comps[j] == comps[1..][j - 1];
      match later
      case Some(c) =>
        assert exists i :: (0 <= i < |comps| && comps[i] == c && c.kind == T &&
          forall j :: i < j < |comps| ==> comps[j].kind != T) by {
          var i :| (0 <= i < |comps[1..]| && comps[1..][i] == c && c.kind == T &&
            forall j :: i < j < |comps[1..]| ==> comps[1..][j].kind != T);
          assert comps[i + 1] == c;
        }
        later
      case None =>
        if comps[0].kind == T then Some(comps[0]) else None
  }

  /**
   add_component_to_entity: c is stored under its class on x, replacing any
   earlier component of that class; x gets a row if it had none, whether or
   not its id was ever issued.
   */
  function AddComponent(s: State, c: Component, x: EntityId): (r: State)
    ensures GetComponentFromEntity(r, c.kind, x) == Found(c)
    ensures forall y, T :: (y != x || T != c.kind) ==> GetComponentFromEntity(r, T, y) == GetComponentFromEntity(s, T, y)
    ensures r.entities.Keys == s.entities.Keys + {x}
    ensures Indexes(r, c.kind, x)
    ensures forall y, T :: (y != x || T != c.kind) ==> (Indexes(r, T, y) <==> Indexes(s, T, y))
    ensures r.dead == s.dead && r.nextId == s.nextId && r.systems == s.systems
    ensures WellFormed(s) ==> WellFormed(r)
    ensures Valid(s) ==> Valid(r)
  {
    var members := if c.kind in s.index then s.index[c.kind] else {};
    var row := if x in s.entities then s.entities[x] else map[];
    s.(index := s.index[c.kind := members + {x}], entities := s.entities[x := row[c.kind := c]])
  }

  /** Adds each of `comps` to x, in order. */
  function AddAll(s: State, comps: seq<Component>, x: EntityId): (r: State)
    ensures forall T :: GetComponentFromEntity(r, T, x).Found? <==> LastOf(comps, T).Some? || GetComponentFromEntity(s, T, x).Found?
    ensures forall T :: LastOf(comps, T).Some? ==> GetComponentFromEntity(r, T, x) == Found(LastOf(comps, T).value)
    ensures forall T :: LastOf(comps, T).None? ==> GetComponentFromEntity(r, T, x) == GetComponentFromEntity(s, T, x)
    ensures forall y, T :: y != x ==> GetComponentFromEntity(r, T, y) == GetComponentFromEntity(s, T, y)
    ensures r.entities.Keys == if comps == [] then s.entities.Keys else s.entities.Keys + {x}
    ensures forall T :: Indexes(r, T, x) <==> Indexes(s, T, x) || LastOf(comps, T).Some?
    ensures forall y, T :: y != x ==> (Indexes(r, T, y) <==> Indexes(s, T, y))
    ensures r.dead == s.dead && r.nextId == s.nextId && r.systems == s.systems
    ensures WellFormed(s) ==> WellFormed(r)
    ensures Valid(s) ==> Valid(r)
    decreases |comps|
  {
    if comps == [] then s else AddAll(AddComponent(s, comps[0], x), comps[1..], x)
  }

  /**
   new_entity as written: the counter is advanced first and its new value is
   the id; that id's row is set to empty (overwriting any row already there)
   and then each of `comps` is added to it.
   */
  function NewEntity(s: State, comps: seq<Component>): (r: Created)
    ensures r.id == s.nextId + 1 && r.state.nextId == r.id
    ensures r.state.entities.Keys == s.entities.Keys + {r.id}
    ensures forall T :: GetComponentFromEntity(r.state, T, r.id).Found? <==> LastOf(comps, T).Some?
    ensures forall T :: LastOf(comps, T).Some? ==> GetComponentFromEntity(r.state, T, r.id) == Found(LastOf(comps, T).value)
    ensures forall y, T :: y != r.id ==> GetComponentFromEntity(r.state, T, y) == GetComponentFromEntity(s, T, y)
    ensures forall T :: Indexes(r.state, T, r.id) <==> Indexes(s, T, r.id) || LastOf(comps, T).Some?
    ensures forall y, T :: y != r.id ==> (Indexes(r.state, T, y) <==> Indexes(s, T, y))
    ensures r.state.dead == s.dead && r.state.systems == s.systems
    ensures WellFormed(s) ==> WellFormed(r.state)
  {
    var id := s.nextId + 1;
    var issued := s.(nextId := id, entities := s.entities[id := map[]]);
    assert forall T :: GetComponentFromEntity(issued, T, id) == KeyError;
    assert forall y, T :: y != id ==> GetComponentFromEntity(issued, T, y) == GetComponentFromEntity(s, T, y);
    assert WellFormed(s) ==> WellFormed(issued) by {
      if WellFormed(s) {
        IssueKeepsWellFormed(s, id);
      }
    }
    Created(AddAll(issued, comps, id), id)
  }

  /** Advancing the counter and giving the issued id an empty row keeps the registry well formed. */
  lemma IssueKeepsWellFormed(s: State, id: EntityId)
    requires WellFormed(s) && id == s.nextId + 1
    ensures WellFormed(s.(nextId := id, entities := s.entities[id := map[]]))
  {
    var s1 := s.(nextId := id, entities := s.entities[id := map[]]);
    forall y, T | Holds(s1, y, T) ensures Indexes(s1, T, y) && s1.entities[y][T].kind == T {
      assert y != id && Holds(s, y, T);
    }
  }

  /** The id new_entity is about to issue has no components stored under it. */
  ghost predicate Unclaimed(s: State) {
    s.nextId + 1 !in s.entities || s.entities[s.nextId + 1] == map[]
  }

  /** Advancing the counter and giving the issued id an empty row keeps the registry consistent when no index set records that id. */
  lemma IssueKeepsValid(s: State, id: EntityId)
    requires id == s.nextId + 1
    requires NoEmptyIndex(s) && Typed(s) && IndexBacked(s)
    requires forall y, T :: y != id && Holds(s, y, T) ==> Indexes(s, T, y)
    requires forall T :: !Indexes(s, T, id)
    ensures Valid(s.(nextId := id, entities := s.entities[id := map[]]))
  {
    var s1 := s.(nextId := id, entities := s.entities[id := map[]]);
    forall y, T | Holds(s1, y, T) ensures Indexes(s1, T, y) && s1.entities[y][T].kind == T {
      assert y != id && Holds(s, y, T);
    }
    forall y, T | Indexes(s1, T, y) ensures Holds(s1, y, T) {
      assert Indexes(s, T, y) && y != id;
      assert Holds(s, y, T);
    }
  }

  /** new_entity ends consistent whenever issuing the id alone leaves the registry consistent. */
  lemma IssueThenAddKeepsValid(s: State, comps: seq<Component>)
    requires Valid(s.(nextId := s.nextId + 1, entities := s.entities[s.nextId + 1 := map[]]))
    ensures Valid(NewEntity(s, comps).state)
  {
  }

  /** new_entity keeps the table and the index in agreement when the id it issues holds no components. */
  lemma NewEntityKeepsValid(s: State, comps: seq<Component>)
    requires Valid(s) && Unclaimed(s)
    ensures Valid(NewEntity(s, comps).state)
  {
    var id := s.nextId + 1;
    forall T ensures !Indexes(s, T, id) {
      assert Indexes(s, T, id) ==> Holds(s, id, T);
    }
    IssueKeepsValid(s, id);
    IssueThenAddKeepsValid(s, comps);
  }

  /** The index with x struck out of every set, dropping the sets that become empty. */
  function Unlist(index: map<Kind, set<EntityId>>, x: EntityId): (r: map<Kind, set<EntityId>>)
    ensures forall T, y :: T in r && y in r[T] <==> T in index && y in index[T] && y != x
    ensures forall T :: T in r ==> r[T] != {}
  {
    var r := map T | T in index && index[T] - {x} != {} :: index[T] - {x};
    assert forall T, y :: T in index && y in index[T] && y != x ==> T in r && y in r[T] by {
      forall T, y | T in index && y in index[T] && y != x ensures T in r && y in r[T] {
        assert y in index[T] - {x};
      }
    }
    r
  }

  /**
   new_entity as evidently intended: the issued id starts with no components
   in the table and in the index, so the registry stays consistent.
   */
  function CreateEntity(s: State, comps: seq<Component>): (r: Created)
    ensures r.id == s.nextId + 1 && r.state.nextId == r.id
    ensures forall T :: GetComponentFromEntity(r.state, T, r.id).Found? <==> LastOf(comps, T).Some?
    ensures forall T :: LastOf(comps, T).Some? ==> GetComponentFromEntity(r.state, T, r.id) == Found(LastOf(comps, T).value)
    ensures forall y, T :: y != r.id ==> GetComponentFromEntity(r.state, T, y) == GetComponentFromEntity(s, T, y)
    ensures r.state.entities.Keys == s.entities.Keys + {r.id}
    ensures forall T :: Indexes(r.state, T, r.id) <==> LastOf(comps, T).Some?
    ensures forall y, T :: y != r.id ==> (Indexes(r.state, T, y) <==> Indexes(s, T, y))
    ensures r.state.dead == s.dead && r.state.systems == s.systems
  {
    NewEntity(s.(index := Unlist(s.index, s.nextId + 1)), comps)
  }

  /** The corrected new_entity keeps the table and the index in agreement, whatever the id it issues held. */
  lemma CreateEntityKeepsValid(s: State, comps: seq<Component>)
    requires Valid(s)
    ensures Valid(CreateEntity(s, comps).state)
  {
    PurgeAndIssueKeepsValid(s);
    IssueThenAddKeepsValid(s.(index := Unlist(s.index, s.nextId + 1)), comps);
  }

  /** Striking the next id out of the index and then issuing it leaves a Valid registry Valid. */
  lemma PurgeAndIssueKeepsValid(s: State)
    requires Valid(s)
    ensures var id := s.nextId + 1;
      Valid(s.(index := Unlist(s.index, id), nextId := id, entities := s.entities[id := map[]]))
  {
    var id := s.nextId + 1;
    UnlistKeepsAgreement(s, id);
    IssueKeepsValid(s.(index := Unlist(s.index, id)), id);
  }

  /** In a Valid registry, striking out an id that holds no components changes nothing. */
  lemma UnissuedUnlisted(s: State)
    requires Valid(s) && Unclaimed(s)
    ensures Unlist(s.index, s.nextId + 1) == s.index
  {
    var id := s.nextId + 1;
    forall T | T in s.index ensures id !in s.index[T] {
      assert Indexes(s, T, id) ==> Holds(s, id, T);
    }
    UnlistUnused(s.index, id);
  }

  /** Striking out an id no set holds changes nothing. */
  lemma UnlistUnused(index: map<Kind, set<EntityId>>, x: EntityId)
    requires forall T :: T in index ==> index[T] != {} && x !in index[T]
    ensures Unlist(index, x) == index
  {
    forall T | T in index ensures index[T] - {x} == index[T] {}
  }

  /** Striking x out of the index of a Valid registry leaves it Valid except for x's own row. */
  lemma UnlistKeepsAgreement(s: State, x: EntityId)
    requires Valid(s)
    ensures var s0 := s.(index := Unlist(s.index, x));
      && NoEmptyIndex(s0) && Typed(s0) && IndexBacked(s0)
      && (forall y, T :: y != x && Holds(s0, y, T) ==> Indexes(s0, T, y))
      && (forall T :: !Indexes(s0, T, x))
  {
    var s0 := s.(index := Unlist(s.index, x));
    forall y, T | Indexes(s0, T, y) ensures Holds(s0, y, T) {
      assert Indexes(s, T, y);
    }
    forall y, T | y != x && Holds(s0, y, T) ensures Indexes(s0, T, y) {
      assert Indexes(s, T, y);
    }
  }

  /** Where new_entity as written is already correct, the corrected one does exactly the same. */
  lemma CreateEntityAgrees(s: State, comps: seq<Component>)
    requires Valid(s) && Unclaimed(s)
    ensures CreateEntity(s, comps) == NewEntity(s, comps)
  {
    UnissuedUnlisted(s);
    CreateEntityWhenUnlisted(s, comps);
  }

  /** When the next id is in no index set, the corrected new_entity is the written one. */
  lemma CreateEntityWhenUnlisted(s: State, comps: seq<Component>)
    requires Unlist(s.index, s.nextId + 1) == s.index
    ensures CreateEntity(s, comps) == NewEntity(s, comps)
  {
    var s0 := s.(index := Unlist(s.index, s.nextId + 1));
    assert CreateEntity(s, comps) == NewEntity(s0, comps);
    NewEntityOnEqual(s0, s, comps);
  }

  /** new_entity is a function of the registry's contents. */
  lemma NewEntityOnEqual(a: State, b: State, comps: seq<Component>)
    requires a.index == b.index && a.entities == b.entities && a.dead == b.dead
    requires a.nextId == b.nextId && a.systems == b.systems
    ensures NewEntity(a, comps) == NewEntity(b, comps)
  {
    assert a == b;
  }

  /** The index with x struck out of the sets of the classes in `kinds`, dropping the sets that become empty. */
  function Unindex(index: map<Kind, set<EntityId>>, x: EntityId, kinds: set<Kind>): (r: map<Kind, set<EntityId>>)
    ensures forall T, y :: T in r && y in r[T] <==> T in index && y in index[T] && !(y == x && T in kinds)
    ensures (forall T :: T in index ==> index[T] != {}) ==> forall T :: T in r ==> r[T] != {}
  {
    var r := map T | T in index && (T !in kinds || index[T] - {x} != {}) :: if T in kinds then index[T] - {x} else index[T];
    assert forall T, y :: T in index && y in index[T] && !(y == x && T in kinds) ==> T in r && y in r[T] by {
      forall T, y | T in index && y in index[T] && !(y == x && T in kinds) ensures T in r && y in r[T] {
        if T in kinds {
          assert y in index[T] - {x};
        }
      }
    }
    r
  }

  /**
   remove_entity(x, immediate=True): x leaves the index set of every class
   its row holds, emptied sets are dropped, and the row is deleted. Raises
   KeyError, changing nothing, when x has no row. The pending set is not
   touched.
   */
  function RemoveEntityNow(s: State, x: EntityId): (r: Outcome)
    requires WellFormed(s)
    ensures r.Raised? <==> x !in s.entities
    ensures r.Raised? ==> r.state == s
    ensures r.Done? ==> r.state.entities == s.entities - {x}
    ensures r.Done? ==> forall T :: T in s.entities[x] ==> !Indexes(r.state, T, x)
    ensures r.Done? ==> forall T :: T !in s.entities[x] ==> (Indexes(r.state, T, x) <==> Indexes(s, T, x))
    ensures forall y, T :: y != x ==> (Indexes(r.state, T, y) <==> Indexes(s, T, y))
    ensures r.state.dead == s.dead && r.state.nextId == s.nextId && r.state.systems == s.systems
    ensures WellFormed(r.state)
    ensures Valid(s) ==> Valid(r.state) && forall T :: !Indexes(r.state, T, x)
  {
    if x !in s.entities then Raised(s)
    else
      var r := s.(entities := s.entities - {x}, index := Unindex(s.index, x, s.entities[x].Keys));
      assert Valid(s) ==> IndexBacked(r) by {
        if Valid(s) {
          forall y, T | Indexes(r, T, y) ensures Holds(r, y, T) {
            assert Holds(s, y, T);
          }
        }
      }
      Done(r)
  }

  /**
   remove_entity: immediately as above, or (by default) only marking x for
   deletion at the next process call, which changes nothing else and never
   raises.
   */
  function RemoveEntity(s: State, x: EntityId, immediate: bool): (r: Outcome)
    requires immediate ==> WellFormed(s)
    ensures !immediate ==> r.Done? && r.state.dead == s.dead + {x} && r.state.(dead := s.dead) == s
    ensures immediate ==> r == RemoveEntityNow(s, x)
  {
    if immediate then RemoveEntityNow(s, x) else Done(s.(dead := s.dead + {x}))
  }

  /** The index with x struck out of T's set, dropping that set if it becomes empty. */
  function Drop(index: map<Kind, set<EntityId>>, T: Kind, x: EntityId): (r: map<Kind, set<EntityId>>)
    requires T in index
    ensures forall U, y :: U in r && y in r[U] <==> U in index && y in index[U] && !(U == T && y == x)
    ensures (forall U :: U in index ==> index[U] != {}) ==> forall U :: U in r ==> r[U] != {}
    ensures x !in index[T] && index[T] != {} ==> r == index
  {
    var rest := index[T] - {x};
    assert x !in index[T] ==> rest == index[T];
    assert forall y :: y in index[T] && y != x ==> y in rest;
    if rest == {} then index - {T} else index[T := rest]
  }

  /**
   remove_component_from_entity: T leaves x's row (the row is deleted if it
   becomes empty) and x leaves T's index set (the set is dropped if it
   becomes empty). Raises KeyError when T has no index, or x holds no T;
   the table is then untouched, x has still left T's index set, and in a
   Valid registry the state is unchanged.
   */
  function RemoveComponent(s: State, T: Kind, x: EntityId): (r: Outcome)
    ensures r.Done? <==> T in s.index && Holds(s, x, T)
    ensures T !in s.index ==> r == Raised(s)
    ensures r.Done? ==> GetComponentFromEntity(r.state, T, x) == KeyError && !Indexes(r.state, T, x)
    ensures r.Done? ==> forall y, U :: (y != x || U != T) ==> GetComponentFromEntity(r.state, U, y) == GetComponentFromEntity(s, U, y)
    ensures r.Done? ==> (x in r.state.entities <==> s.entities[x].Keys != {T})
    ensures r.Done? ==> forall y :: y != x ==> (y in r.state.entities <==> y in s.entities)
    ensures forall y, U :: (y != x || U != T) ==> (Indexes(r.state, U, y) <==> Indexes(s, U, y))
    ensures r.state.dead == s.dead && r.state.nextId == s.nextId && r.state.systems == s.systems
    ensures r.Raised? ==> r.state.entities == s.entities && !Indexes(r.state, T, x)
    ensures Valid(s) && r.Raised? ==> r.state == s
    ensures WellFormed(s) ==> WellFormed(r.state)
    ensures Valid(s) ==> Valid(r.state)
  {
    if T !in s.index then Raised(s)
    else
      var s1 := s.(index := Drop(s.index, T, x));
      if x !in s.entities || T !in s.entities[x] then
        assert Valid(s) ==> s1 == s by {
          if Valid(s) {
            assert Indexes(s, T, x) ==> Holds(s, x, T);
          }
        }
        Raised(s1)
      else
        var row := s.entities[x] - {T};
        assert row.Keys == s.entities[x].Keys - {T};
        assert row == map[] <==> s.entities[x].Keys == {T} by {
          assert row == map[] <==> row.Keys == {};
        }
        Done(s1.(entities := if row == map[] then s.entities - {x} else s.entities[x := row]))
  }
}

=== FILE: systems.dfy ===
/**
 The Manager's system registry: an ordered list of system instances,
 appended to by add_system and pruned by remove_system. Dispatching
 `process` to the systems is not modelled.
 */
module Systems {
  import opened Registry

  /** No system instance is registered twice. */
  ghost predicate Distinct(list: seq<System>) {
    forall i, j :: 0 <= i < j < |list| ==> list[i] != list[j]
  }

  /** add_system: the system joins the end of the list, so dispatch follows registration order. */
  function AddSystem(s: State, sys: System): (r: State)
    ensures |r.systems| == |s.systems| + 1 && r.systems[..|s.systems|] == s.systems && r.systems[|s.systems|] == sys
    ensures r.(systems := s.systems) == s
  {
    s.(systems := s.systems + [sys])
  }

  /** Python's list.remove: the list without its first element equal to x. */
  function RemoveFirst(list: seq<System>, x: System): (r: seq<System>)
    requires x in list
    ensures |r| == |list| - 1
  {
    if list[0] == x then list[1..] else [list[0]] + RemoveFirst(list[1..], x)
  }

  /** list.remove takes out one occurrence of x and nothing else. */
  lemma {:induction false} RemoveFirstCount(list: seq<System>, x: System)
    requires x in list
    ensures multiset(RemoveFirst(list, x)) == multiset(list) - multiset{x}
    decreases |list|
  {
    assert list == [list[0]] + list[1..];
    if list[0] != x {
      RemoveFirstCount(list[1..], x);
    }
  }

  /** When x is not among the systems before it, list.remove(x) takes out that very occurrence. */
  lemma {:induction false} RemoveFirstAt(before: seq<System>, x: System, after: seq<System>)
    requires x !in before
    ensures RemoveFirst(before + [x] + after, x) == before + after
    decreases |before|
  {
    if before == [] {
      assert before + [x] + after == [x] + after;
    } else {
      assert (before + [x] + after)[1..] == before[1..] + [x] + after;
      RemoveFirstAt(before[1..], x, after);
      assert before == [before[0]] + before[1..];
    }
  }

  /** Taking one element out of a list of distinct instances leaves distinct instances. */
  lemma DistinctDrop(list: seq<System>, k: nat)
    requires Distinct(list) && k < |list|
    ensures Distinct(list[..k] + list[k + 1..])
  {
    var short := list[..k] + list[k + 1..];
    forall i, j | 0 <= i < j < |short| ensures short[i] != short[j] {
      var i' := if i < k then i else i + 1;
      var j' := if j < k then j else j + 1;
      assert short[i] == list[i'] && short[j] == list[j'];
    }
  }

  /**
   remove_system as written: a `for` over the list while matching systems
   are removed from that same list. Python keeps a position counter, so the
   element that slides into a removed system's place is never looked at.
   */
  function IterRemove(list: seq<System>, kind: Kind, i: nat): (r: seq<System>)
    ensures |r| <= |list|
    decreases |list| - i
  {
    if i >= |list| then list
    else if list[i].kind == kind then IterRemove(RemoveFirst(list, list[i]), kind, i + 1)
    else IterRemove(list, kind, i + 1)
  }

  /** The loop only ever removes systems of the class, and keeps every other system. */
  lemma {:induction false} IterRemoveCount(list: seq<System>, kind: Kind, i: nat)
    ensures multiset(IterRemove(list, kind, i)) <= multiset(list)
    ensures forall y: System :: y.kind != kind ==> multiset(IterRemove(list, kind, i))[y] == multiset(list)[y]
    decreases |list| - i
  {
    if i < |list| {
      if list[i].kind == kind {
        var shorter := RemoveFirst(list, list[i]);
        RemoveFirstCount(list, list[i]);
        IterRemoveCount(shorter, kind, i + 1);
      } else {
        IterRemoveCount(list, kind, i + 1);
      }
    }
  }

  /** remove_system never removes a system of another class, and removes only registered systems. */
  lemma RemoveSystemKeepsOthers(s: State, kind: Kind)
    ensures multiset(RemoveSystem(s, kind).systems) <= multiset(s.systems)
    ensures forall y: System :: y.kind != kind ==> multiset(RemoveSystem(s, kind).systems)[y] == multiset(s.systems)[y]
  {
    IterRemoveCount(s.systems, kind, 0);
  }

  /** remove_system as written, on the Manager's state. */
  function RemoveSystem(s: State, kind: Kind): (r: State)
    ensures r.(systems := s.systems) == s
    ensures forall y :: y in r.systems ==> y in s.systems
    ensures forall y :: y in s.systems && y.kind != kind ==> y in r.systems
  {
    IterRemoveCount(s.systems, kind, 0);
    var kept := IterRemove(s.systems, kind, 0);
    assert forall y :: y in kept ==> y in s.systems by {
      forall y | y in kept ensures y in s.systems {
        assert y in multiset(kept);
      }
    }
    s.(systems := kept)
  }

  /**
   Which systems remove_system removes, stated directly: a system of the
   class is removed exactly when the system registered just before it was
   not removed. `skip` says the previous one was removed.
   */
  function SkipRule(list: seq<System>, kind: Kind, skip: bool): seq<System> {
    if list == [] then []
    else if !skip && list[0].kind == kind then SkipRule(list[1..], kind, true)
    else [list[0]] + SkipRule(list[1..], kind, false)
  }

  /** Run from position |done|, the loop leaves the walked prefix alone and treats the rest by the skip rule. */
  lemma {:induction false} IterRemoveFrom(done: seq<System>, rest: seq<System>, kind: Kind)
    requires Distinct(done + rest)
    ensures IterRemove(done + rest, kind, |done|) == done + SkipRule(rest, kind, false)
    decreases |rest|
  {
    var list := done + rest;
    if rest == [] {
      assert list == done;
    } else if rest[0].kind == kind {
      assert list[|done|] == rest[0];
      assert rest[0] !in done by {
        forall k | 0 <= k < |done| ensures done[k] != rest[0] {
          assert done[k] == list[k];
        }
      }
      assert list == done + [rest[0]] + rest[1..];
      RemoveFirstAt(done, rest[0], rest[1..]);
      var shorter := done + rest[1..];
      assert IterRemove(list, kind, |done|) == IterRemove(shorter, kind, |done| + 1);
      assert SkipRule(rest, kind, false) == SkipRule(rest[1..], kind, true);
      if rest[1..] == [] {
        assert shorter == done;
      } else {
        var done' := done + [rest[1]];
        var rest' := rest[2..];
        assert shorter == done' + rest' by {
          assert rest[1..] == [rest[1]] + rest';
        }
        assert Distinct(shorter) by {
          assert list[..|done|] == done && list[|done| + 1..] == rest[1..];
          DistinctDrop(list, |done|);
        }
        IterRemoveFrom(done', rest', kind);
        assert rest[1..][1..] == rest';
      }
    } else {
      var done' := done + [rest[0]];
      assert list == done' + rest[1..];
      IterRemoveFrom(done', rest[1..], kind);
    }
  }

  /** On a list of distinct instances, remove_system removes exactly what the skip rule says. */
  lemma RemoveSystemFollowsSkipRule(s: State, kind: Kind)
    requires Distinct(s.systems)
    ensures RemoveSystem(s, kind).systems == SkipRule(s.systems, kind, false)
  {
    IterRemoveSkipRule(s.systems, kind);
  }

  /** The whole loop, from position 0, follows the skip rule on distinct instances. */
  lemma IterRemoveSkipRule(list: seq<System>, kind: Kind)
    requires Distinct(list)
    ensures IterRemove(list, kind, 0) == SkipRule(list, kind, false)
  {
    assert [] + list == list;
    IterRemoveFrom([], list, kind);
  }

  /** The list without the systems of the given class, in their order. */
  function WithoutKind(list: seq<System>, kind: Kind): (r: seq<System>)
    ensures forall y :: y in r <==> y in list && y.kind != kind
  {
    if list == [] then []
    else if list[0].kind == kind then WithoutKind(list[1..], kind)
    else [list[0]] + WithoutKind(list[1..], kind)
  }

  /** Filtering out a class keeps every other system as often as it occurs and no system of the class. */
  lemma {:induction false} WithoutKindCount(list: seq<System>, kind: Kind)
    ensures forall y: System :: y.kind != kind ==> multiset(WithoutKind(list, kind))[y] == multiset(list)[y]
    ensures forall y: System :: y.kind == kind ==> multiset(WithoutKind(list, kind))[y] == 0
    decreases |list|
  {
    if list != [] {
      assert list == [list[0]] + list[1..];
      WithoutKindCount(list[1..], kind);
    }
  }

  /** remove_system as evidently intended: every system of the class leaves, the others keep their order. */
  function RemoveSystemIntended(s: State, kind: Kind): (r: State)
    ensures forall y :: y in r.systems ==> y.kind != kind
    ensures forall y: System :: y.kind != kind ==> multiset(r.systems)[y] == multiset(s.systems)[y]
    ensures r.(systems := s.systems) == s
  {
    WithoutKindCount(s.systems, kind);
    s.(systems := WithoutKind(s.systems, kind))
  }

  /** No two systems of the class are registered next to each other. */
  ghost predicate NoAdjacent(list: seq<System>, kind: Kind) {
    forall i :: 0 < i < |list| && list[i - 1].kind == kind ==> list[i].kind != kind
  }

  /** Where no two systems of the class are neighbours, the skip rule removes them all. */
  lemma {:induction false} SkipRuleWithoutAdjacent(list: seq<System>, kind: Kind)
    requires NoAdjacent(list, kind)
    ensures SkipRule(list, kind, false) == WithoutKind(list, kind)
    decreases |list|
  {
    if list == [] {
    } else if list[0].kind == kind {
      if |list| == 1 {
        assert list[1..] == [];
      } else {
        assert list[1].kind != kind;
        assert list[1..][1..] == list[2..];
        assert NoAdjacent(list[2..], kind) by {
          forall i | 0 < i < |list[2..]| && list[2..][i - 1].kind == kind ensures list[2..][i].kind != kind {
            assert list[2..][i - 1] == list[i + 1] && list[2..][i] == list[i + 2];
          }
        }
        SkipRuleWithoutAdjacent(list[2..], kind);
        assert SkipRule(list[1..], kind, true) == [list[1]] + SkipRule(list[2..], kind, false);
        assert WithoutKind(list[1..], kind) == [list[1]] + WithoutKind(list[2..], kind);
      }
    } else {
      assert NoAdjacent(list[1..], kind) by {
        forall i | 0 < i < |list[1..]| && list[1..][i - 1].kind == kind ensures list[1..][i].kind != kind {
          assert list[1..][i - 1] == list[i] && list[1..][i] == list[i + 1];
        }
      }
      SkipRuleWithoutAdjacent(list[1..], kind);
    }
  }

  /** A tail of a list without neighbouring systems of the class has none either. */
  lemma NoAdjacentTail(list: seq<System>, kind: Kind, k: nat)
    requires NoAdjacent(list, kind) && k <= |list|
    ensures NoAdjacent(list[k..], kind)
  {
    forall i | 0 < i < |list[k..]| && list[k..][i - 1].kind == kind ensures list[k..][i].kind != kind {
      assert list[k..][i - 1] == list[k + i - 1] && list[k..][i] == list[k + i];
    }
  }

  /** At a system of the class after a prefix with none, the loop removes it and moves on past its successor. */
  lemma IterRemoveAtMatch(done: seq<System>, x: System, after: seq<System>, kind: Kind)
    requires x.kind == kind && forall k :: 0 <= k < |done| ==> done[k].kind != kind
    ensures IterRemove(done + [x] + after, kind, |done|) == IterRemove(done + after, kind, |done| + 1)
  {
    assert (done + [x] + after)[|done|] == x;
    assert x !in done;
    RemoveFirstAt(done, x, after);
  }

  /**
   Run from position |done| over a walked prefix holding no system of the
   class, the loop removes every system of the class from the rest when no
   two of them are neighbours, even if one instance is registered twice:
   the instance list.remove finds first is the one the loop is looking at.
   */
  lemma {:induction false} IterRemoveWithoutAdjacent(done: seq<System>, rest: seq<System>, kind: Kind)
    requires forall k :: 0 <= k < |done| ==> done[k].kind != kind
    requires NoAdjacent(rest, kind)
    ensures IterRemove(done + rest, kind, |done|) == done + WithoutKind(rest, kind)
    decreases |rest|
  {
    if rest == [] {
      assert done + rest == done;
    } else if rest[0].kind == kind {
      assert done + rest == done + [rest[0]] + rest[1..];
      IterRemoveAtMatch(done, rest[0], rest[1..], kind);
      if |rest| == 1 {
        assert done + rest[1..] == done;
      } else {
        IterRemoveAfterMatch(done, rest, kind);
      }
    } else {
      IterRemovePastOther(done, rest, kind);
    }
  }

  /** The step at a system of another class: the loop passes over it. */
  lemma {:induction false} IterRemovePastOther(done: seq<System>, rest: seq<System>, kind: Kind)
    requires forall k :: 0 <= k < |done| ==> done[k].kind != kind
    requires NoAdjacent(rest, kind) && |rest| >= 1 && rest[0].kind != kind
    ensures IterRemove(done + rest, kind, |done|) == done + WithoutKind(rest, kind)
    decreases |rest|, 0
  {
    var done' := done + [rest[0]];
    assert done + rest == done' + rest[1..];
    assert (done + rest)[|done|] == rest[0];
    NoAdjacentTail(rest, kind, 1);
    IterRemoveWithoutAdjacent(done', rest[1..], kind);
  }

  /** The step after a removed match: its successor is not of the class and is passed over. */
  lemma {:induction false} IterRemoveAfterMatch(done: seq<System>, rest: seq<System>, kind: Kind)
    requires forall k :: 0 <= k < |done| ==> done[k].kind != kind
    requires NoAdjacent(rest, kind) && |rest| >= 2 && rest[0].kind == kind
    ensures IterRemove(done + rest[1..], kind, |done| + 1) == done + WithoutKind(rest, kind)
    decreases |rest|, 0
  {
    assert rest[1].kind != kind;
    var done' := done + [rest[1]];
    var rest' := rest[2..];
    assert done + rest[1..] == done' + rest' by {
      assert rest[1..] == [rest[1]] + rest';
    }
    NoAdjacentTail(rest, kind, 2);
    IterRemoveWithoutAdjacent(done', rest', kind);
    assert rest[1..][1..] == rest';
    assert WithoutKind(rest, kind) == WithoutKind(rest[1..], kind) == [rest[1]] + WithoutKind(rest', kind);
  }

  /** Where no two systems of the class are neighbours, remove_system as written does what was intended. */
  lemma RemoveSystemCorrectWithoutAdjacent(s: State, kind: Kind)
    requires NoAdjacent(s.systems, kind)
    ensures RemoveSystem(s, kind) == RemoveSystemIntended(s, kind)
  {
    assert [] + s.systems == s.systems;
    IterRemoveWithoutAdjacent([], s.systems, kind);
  }

  /** Two instances of one class registered one after the other: remove_system leaves the second in place. */
  lemma RemoveSystemLeavesSecondOfPair(s: State, a: System, b: System)
    requires s.systems == [a, b] && a != b && a.kind == b.kind
    ensures RemoveSystem(s, a.kind).systems == [b]
    ensures RemoveSystemIntended(s, a.kind).systems == []
  {
    assert Distinct(s.systems);
    RemoveSystemFollowsSkipRule(s, a.kind);
    assert [a, b][1..] == [b] && [b][1..] == [];
    assert SkipRule([a, b], a.kind, false) == SkipRule([b], a.kind, true) == [b];
    assert WithoutKind([a, b], a.kind) == WithoutKind([b], a.kind);
  }

  /** Registering a system and then removing its class as intended is removing the class alone. */
  lemma AddThenRemoveIntended(s: State, sys: System)
    ensures RemoveSystemIntended(AddSystem(s, sys), sys.kind) == RemoveSystemIntended(s, sys.kind)
  {
    WithoutKindAppend(s.systems, [sys], sys.kind);
    assert WithoutKind([sys], sys.kind) == WithoutKind([], sys.kind);
  }

  /** Filtering distributes over concatenation. */
  lemma {:induction false} WithoutKindAppend(a: seq<System>, b: seq<System>, kind: Kind)
    ensures WithoutKind(a + b, kind) == WithoutKind(a, kind) + WithoutKind(b, kind)
    decreases |a|
  {
    if a == [] {
      assert a + b == b;
    } else {
      assert (a + b)[1..] == a[1..] + b;
      assert (a + b)[0] == a[0];
      WithoutKindAppend(a[1..], b, kind);
    }
  }
}
